=== FILE: README.md ===
# OTA update core of an ESP32 firmware, modelled in Dafny

The firmware checks a JSON manifest for a newer version and, if it finds one,
downloads a new image into the next OTA partition. It then calls
`esp_ota_mark_app_valid_cancel_rollback` (ESP-IDF applies it to the running
image), makes the new partition the boot partition and restarts. This project models that update path in
`firmware.c`:

- `check_version` (lines 65-148) fetches the manifest over HTTP. It checks the
  declared length against 1..2048 and reads the body once into a buffer of
  `length + 1` bytes. It NUL-terminates the body, parses it with cJSON, copies
  the `url` into the 256-byte global `firmware_url` with `strncpy`, and compares
  `version` with `CURRENT_VERSION` (1). It returns -1, 0 or 1.
- `ota_update_task` (lines 154-251) stops unless the check returned 1. It then
  opens the stored URL, requires a positive declared length and looks up the
  next OTA partition. It begins an OTA session of unknown size and streams the
  image through a 1024-byte buffer. On failure it aborts the session and
  cleans up the client; on success it ends the session, calls
  `esp_ota_mark_app_valid_cancel_rollback` on the running image, sets the boot
  partition and restarts.

`main.c` has exactly the same text as `firmware.c`, so one model covers both.
All citations below are to `firmware.c`.

Every call into the HTTP client, `malloc`, cJSON and the OTA/partition API is
an oracle:

- its answer is a field of a server datatype: `Platform.ManifestServer` for
  the version check, and `Platform.ImageServer` for the download, which holds
  one `Step` per loop round;
- each operation returns the trace of `Platform.Effect`s it made, each effect
  carrying the answer it got.

`Protocol` is an automaton over those effects, stated independently of the
firmware's control flow. Its first three rules are the platform's resource
rules:

- an HTTP client is created, then opened; cleanup ends it, and close, when
  called, precedes cleanup (cleanup alone also ends a client);
- a heap buffer is freed once;
- an OTA session is begun on the partition just looked up, then ended or
  aborted. `esp_ota_end` frees the session's handle whether or not it
  succeeds, as ESP-IDF documents it. An abort of an already freed handle
  finds nothing (`ESP_ERR_NOT_FOUND`) and changes nothing.

Its fourth rule is not a platform rule. ESP-IDF accepts the mark-valid call at
any time. It is the commit order the firmware must follow: mark valid, set
boot partition and restart come only after a successful end, in that order,
and nothing follows the restart.

The lemmas run each operation's trace through the automaton.

`ota_update_task` jumps to `cleanup` from nine places, five of them before the loop.
`OtaTask.DownloadImage` has one branch for each of those five. The loop itself is `ImageWriter.StreamImage`,
one recursive call per round, and `OtaTask.Conclude` covers the calls after it.

Modules:

| file | module | contents |
|---|---|---|
| `wrappers.dfy` | `Wrappers` | `Option` |
| `cstrings.dfy` | `CStrings` | bytes, `strlen`, the C-string view of a buffer, `strncpy` |
| `platform.dfy` | `Platform` | constants, oracles and effects |
| `protocol.dfy` | `Protocol` | the resource-usage automaton |
| `version_check.dfy` | `VersionCheck` | `check_version` |
| `image_writer.dfy` | `ImageWriter` | the streaming loop |
| `ota_task.dfy` | `OtaTask` | the rest of `ota_update_task`, and the end-to-end cases |

Behaviours of the code worth noting, all modelled as written:

- the manifest buffer is `malloc(content_length + 1)` bytes (line 97);
- a manifest client that fails to open is cleaned up without being closed
  (line 83);
- a URL longer than 255 bytes is silently cut to 255, not rejected
  (lines 137-138);
- a successful update restarts without cleaning up the image client
  (line 244);
- bytes written before a failed transfer stay on the partition, whose session
  is aborted (lines 209 and 215);
- after a failed `esp_ota_end` the code still calls `esp_ota_abort`
  (line 235). The handle is already freed by then, so that call changes
  nothing (`OtaTask.FailedEndReleases`).

## Model

| member | source | states |
|---|---|---|
| CStrings.StrLen | firmware.c:113-118 | The text cJSON and the logger see ends at the first NUL. The length is bounded by the buffer, no earlier byte is NUL, and the byte at the length is NUL whenever the length is inside the buffer. |
| CStrings.StrNCpy | firmware.c:137 | `strncpy` writes exactly n bytes. It copies the source up to its first NUL or n bytes, whichever comes first, and fills the rest with NUL. |
| VersionCheck.TerminatedBody | firmware.c:97-113 | The `length + 1` byte buffer after the read and `buffer[data_read] = '\0'`. It has the requested size and holds the bytes read at its front, with a NUL right after them. Beyond the NUL it keeps whatever `malloc` left there (the oracle `ManifestServer.heap`). It needs the read to have returned at most `length` bytes. |
| VersionCheck.TerminatedBodyText | firmware.c:113-118 | The parser sees the bytes read, up to their first NUL, whatever the buffer holds beyond the terminator. |
| VersionCheck.StoreUrl | firmware.c:137-138 | Storing the URL keeps the global at 256 bytes and its last byte is always NUL. |
| VersionCheck.StoreUrlPrefix | firmware.c:137-138 | After the copy, the global starts with the URL's first `k` bytes, `k` being the URL's length capped at 255, and holds a NUL right after them. |
| VersionCheck.StoreUrlTruncates | firmware.c:137-138 | Read back as a C string, the global holds the manifest URL cut to at most 255 bytes. A URL shorter than 256 bytes is stored whole; a longer one keeps exactly its first 255 bytes. |
| VersionCheck.StoreUrlOverwritesAll | firmware.c:137-138 | The stored global does not depend on what it held before. |
| VersionCheck.ReadManifest | firmware.c:88-119 | A document is parsed exactly when all of these hold: the length is in 1..2048, `malloc` succeeds, the read returns bytes, and the parser accepts them. The buffer is `length + 1` bytes and is allocated only for a length in range. Every read asks for the declared length; `VersionCheck.ReadManifestReadsOnce` shows there is only one. The parser gets the body up to its first NUL, at most `length` bytes. No close, cleanup or OTA call happens here. |
| VersionCheck.ReadManifestReadsOnce | firmware.c:97-105 | When the length is in range and `malloc` succeeds, the body is read exactly once, with the declared length, right after the headers and the allocation; no other read is made. |
| VersionCheck.FetchManifest | firmware.c:73-121 | A document exists only if the client was created and opened and the read succeeded. An opened connection is closed and then cleaned up, once each, as the last two calls. A client that failed to open is cleaned up but never closed. A client never created is neither closed nor cleaned up. Nothing is read or parsed without an open connection. |
| VersionCheck.CheckVersion | firmware.c:65-148 | Returns -1, 0 or 1. It returns -1 exactly when no valid manifest was fetched (the reference `Fetched`). It returns 1 exactly when the manifest version exceeds 1. On -1 the global is untouched; otherwise it holds the `strncpy` of the manifest URL. The calls are those of the fetch. |
| VersionCheck.ReadManifestFreesBuffer | firmware.c:97-119 | On an open connection, the manifest read keeps the usage rules. It frees the buffer it allocated on every path, leaving the state as it found it. |
| VersionCheck.FetchManifestReleasesAll | firmware.c:73-121 | Every path of `check_version` keeps the usage rules and ends with nothing held. |
| ImageWriter.StreamImage | firmware.c:202-224 | The loop continues while reads return bytes and writes succeed. It stops at the first round that does not: a negative read is a read failure, a read of 0 is the end, and a failed write is a write failure. Every write carries 1..1024 bytes. `binary_file_length` grows by 1..1024 per accepted chunk, so it is 0 exactly when no chunk was accepted. |
| ImageWriter.StreamTotal | firmware.c:218 | `binary_file_length` at the loop's exit is the number of bytes the accepted rounds read. |
| ImageWriter.StreamFinishes | firmware.c:205-223 | Rounds that all read bytes and write them, followed by a read of 0, end the loop normally, after exactly those rounds. |
| ImageWriter.StreamRounds | firmware.c:205-219 | Each accepted round is one read of at most 1024 bytes, followed by a successful write of exactly the bytes that read returned. |
| ImageWriter.StreamStopRead | firmware.c:206-210 | The round that stopped the loop made its read at trace position `2 * stop`. |
| ImageWriter.StreamStopWrite | firmware.c:211-216 | When a write stopped the loop, the failed write of the bytes just read is its last call. |
| ImageWriter.StreamWritesImage | firmware.c:205-218 | The partition receives exactly the bytes of the accepted rounds, in order. |
| ImageWriter.StreamKeepsSession | firmware.c:205-224 | The loop keeps the usage rules and leaves the connection and the OTA session as it found them. |
| OtaTask.Conclude | firmware.c:207-244 | After the loop, the device restarts exactly when the stream ended with a read of 0, the total is non-zero and `esp_ota_end` succeeded. Every failure ends with one abort. A failed read or write, and an empty image, give the abort alone, with no end. A restart is preceded by end, mark valid and set boot partition, in that order. |
| OtaTask.FailedEndReleases | firmware.c:232-236 | A failed `esp_ota_end` already releases the session, so the abort that follows it leaves the state unchanged. |
| OtaTask.CommitReboots | firmware.c:232-244 | A successful end, mark valid, set boot and restart keep the usage rules and leave the session finalised and the device rebooting. |
| OtaTask.ConcludeKeepsRules | firmware.c:207-244 | What follows the loop keeps the usage rules. A failure releases the session, and a restart follows end, mark valid and set boot partition. |
| OtaTask.DownloadImage | firmware.c:165-249 | The first call creates a client for the given URL. The device restarts exactly when the client is created and opened, the declared length is positive, a partition is found, the session begins, the loop ends with a read of 0 after a non-empty image, and the end succeeds. It blocks only in the loop of a begun session; every other run fails. |
| OtaTask.OpeningRuns | firmware.c:165-200 | The calls up to a successful begin keep the usage rules. They leave the client connected and the session open on the partition looked up. |
| OtaTask.EarlyExitKeepsRules | firmware.c:165-249 | Every exit before a session is begun keeps the usage rules and leaves nothing held. |
| OtaTask.BegunKeepsRules | firmware.c:195-249 | Once a session is begun, the download keeps the usage rules. A failure leaves nothing held; a restart is the last state. |
| OtaTask.DownloadKeepsRules | firmware.c:165-249 | Every download keeps the usage rules. A failure leaves nothing held; a restart is the last state. |
| OtaTask.DownloadNeverCloses | firmware.c:246-249 | The image client is cleaned up but never closed. |
| OtaTask.DownloadCleansUpLast | firmware.c:246-249 | Once a client was created, every failure cleans it up exactly once, as its last call. |
| OtaTask.DownloadCleansUpOnlyOnFailure | firmware.c:244-249 | A download that restarts or blocks, or never created its client, cleans nothing up. |
| OtaTask.DownloadChecksLength | firmware.c:179-193 | A declared length of 0 or less fails. No partition is looked up unless the client is connected and the length is positive. |
| OtaTask.DownloadBeginsOnFoundPartition | firmware.c:184-200 | A session is begun only after a positive declared length, on the partition looked up, with OTA_SIZE_UNKNOWN. |
| OtaTask.DownloadNeedsConnection | firmware.c:165-176 | No OTA call is made unless the client was created and opened. |
| OtaTask.DownloadAbortsBeforeCleanup | firmware.c:205-249 | Once a session was begun, every failure ends with abort then cleanup. |
| OtaTask.DownloadAbortsOnlyBegun | firmware.c:165-200 | Without a begun session nothing is aborted. |
| OtaTask.DownloadCommitsAfterEnd | firmware.c:232-244 | A restart's last four calls are a successful end, mark valid, set boot to the partition looked up, and restart. |
| OtaTask.DownloadCommitsNothingOnFailure | firmware.c:165-249 | A download that does not restart never marks valid, sets the boot partition or restarts. |
| OtaTask.DownloadRejectsEmptyImage | firmware.c:226-230 | An image of 0 bytes fails. The session is never ended and nothing is committed. |
| OtaTask.DownloadWritesImage | firmware.c:205-244 | A restart follows only a read of 0. The partition then received every byte read before it, in order, and at least one byte. |
| OtaTask.UpdateTask | firmware.c:154-251 | The task downloads only when the check returned 1, that is, only when the manifest is newer. Otherwise its calls are those of the check and include no OTA call. The download uses the manifest URL cut to 255 bytes, after the check's calls, and its outcome is the task's. |
| OtaTask.UpdateTaskKeepsRules | firmware.c:154-251 | The whole task keeps the usage rules. Ending without a restart leaves nothing held and nothing committed; a restart comes after the commit. |
| OtaTask.UpdateTaskEndsWithDownload | firmware.c:156-251 | When the task downloads, everything it writes to flash and its last calls come from the download; the version check writes nothing. |
| OtaTask.FourChunksImage | firmware.c:205-218 | The image of the four-chunk scenario is its four chunks in order. |
| OtaTask.FourChunksStream | firmware.c:202-224 | Four full 1024-byte chunks followed by a read of 0 are all written, 4096 bytes in order, and end the loop normally. |
| OtaTask.FourChunksDownload | firmware.c:165-244 | On a platform where every call succeeds, those four chunks are written in full, the new partition is made the boot partition, and the device restarts. |
| OtaTask.NewerVersionIsInstalled | firmware.c:141-244 | With a version-2 manifest and the four-chunk image, the check returns 1, all 4096 bytes reach the partition, and the task sets the boot partition and restarts. |
| OtaTask.SameVersionIsNotInstalled | firmware.c:141-160 | With a version-1 manifest, the check returns 0 and the task ends after it. The only client is for the manifest URL, and nothing is written. |

## Left out

- Wi-Fi setup, NVS initialisation, the event handler, `app_main` and the LED blink task are outside the update path.
- Logging (`ESP_LOGI`/`ESP_LOGE`, `esp_err_to_name`) and `esp_http_client_get_status_code` have no effect on the outcome. The status code is only logged.
- `vTaskDelete`: the task's end is the end of its trace.
- cJSON itself is an oracle, `ManifestServer.parse`. The model does not describe JSON syntax, the case-insensitive key lookup of `cJSON_GetObjectItem`, the saturation of `valueint` from a double, or `cJSON_Delete`.
- The 5000 ms timeout of the manifest client is not modelled; a timed-out call appears as that call's failure answer.
- `esp_restart` is treated as not returning. The trace ends at the restart, and the fall-through to `cleanup:` is not modelled.
- The image client at line 165 keeps ESP-IDF's default timeout for each read, but the download loop as a whole has no bound in the source. A read script that runs out before a read of 0 or less gives the outcome `Stalled`. A read that times out appears as a failed read.
- The return values of `esp_ota_mark_app_valid_cancel_rollback` and `esp_ota_set_boot_partition` are ignored by the source. The model records the calls without answers.
- The meaning of those two calls belongs to the platform. So does the recovery after power loss between them.
- `binary_file_length` is an unbounded integer. A 32-bit overflow after 2 GiB of image is not modelled.
- VersionCheck.ReadManifest: assumes, as a precondition (`ManifestReadFits`), that `esp_http_client_read` returns at most the requested count. The source relies on this for `buffer[data_read]` to stay in bounds.
- ImageWriter.StreamImage: assumes, as a precondition (`ChunksFit`), that each image read returns at most 1024 bytes, the size of `ota_buf`.
- Heap and stack memory beyond the manifest buffer, and the contents written to flash by `esp_ota_end`'s validation, are not modelled.

=== FILE: cstrings.dfy ===
/**
 * C character buffers: `strlen`, the text a C function sees in a buffer,
 * and `strncpy`, as the firmware uses them on the manifest body and on the
 * global firmware-URL buffer.
 */
module CStrings {

  /** One byte of a `char` buffer. */
  newtype byte = x: int | 0 <= x < 256

  const NUL: byte := 0

  function Min(a: int, b: int): (m: int) { if a <= b then a else b }

  /** The bytes of an ASCII literal (the low byte of each character). */
  function Bytes(s: string): (b: seq<byte>)
    ensures |b| == |s|
  {
    seq(|s|, i requires 0 <= i < |s| => (s[i] as int % 256) as byte)
  }

  /** `strlen`: the index of the first NUL of `buf`, or `|buf|` when it holds none. */
  function StrLen(buf: seq<byte>): (n: nat)
    ensures n <= |buf|
    ensures forall i :: 0 <= i < n ==> buf[i] != NUL
    ensures n < |buf| ==> buf[n] == NUL
  {
    if |buf| == 0 || buf[0] == NUL then 0 else 1 + StrLen(buf[1..])
  }

  /** The text a C function sees when it is handed `buf`: everything before the first NUL. */
  function CStr(buf: seq<byte>): (text: seq<byte>)
  {
    buf[..StrLen(buf)]
  }

  /**
   * The C string in `buf` is exactly `s` whenever `s` is a NUL-free prefix of
   * `buf` that either fills it or is followed by a NUL.
   */
  lemma CStrUnique(buf: seq<byte>, s: seq<byte>)
    requires s <= buf
    requires NUL !in s
    requires |s| < |buf| ==> buf[|s|] == NUL
    ensures CStr(buf) == s
  {
    assert StrLen(buf) == |s|;
  }

  /**
   * `strncpy(dst, src, n)`: copies `src` byte by byte until its NUL (or the
   * end of `src`) or until `n` bytes are written, then fills what remains of
   * the `n` bytes with NUL. The `n` bytes are the whole result; nothing
   * terminates it when `src` is `n` bytes or longer.
   */
  function StrNCpy(src: seq<byte>, n: nat): (dst: seq<byte>)
    ensures |dst| == n
    ensures dst[..Min(StrLen(src), n)] == src[..Min(StrLen(src), n)]
    ensures forall i :: Min(StrLen(src), n) <= i < n ==> dst[i] == NUL
    decreases n
  {
    if n == 0 then []
    else if |src| == 0 || src[0] == NUL then [NUL] + StrNCpy([], n - 1)
    else [src[0]] + StrNCpy(src[1..], n - 1)
  }
}

=== FILE: image_writer.dfy ===
/**
 * The streaming loop of `ota_update_task` (firmware.c lines 202-224): read
 * the image in chunks of at most 1024 bytes and hand each non-empty chunk to
 * `esp_ota_write`, until a read returns 0 (end of image) or fails, or a
 * write fails.
 */
module ImageWriter {
  import opened Wrappers
  import opened CStrings
  import opened Platform
  import opened Protocol

  /** Why the loop stopped; `RanOut` means the reads on record ended before the stream did. */
  datatype StreamEnd = Finished | ReadFailed | WriteFailed | RanOut

  /**
   * The loop's exit: why it stopped, how many chunks were written
   * successfully (`stop`, also the index of the round that stopped it),
   * `binary_file_length`, and the calls made.
   */
  datatype Streamed = Streamed(end: StreamEnd, stop: nat, total: int, trace: seq<Effect>)

  /** A round that keeps the loop going: the read returned bytes and the write took them. */
  predicate Accepted(st: Step)
  {
    st.read.Got? && |st.read.data| > 0 && st.writeOk
  }

  /** The bytes the reads of `steps` returned, in order. */
  function Image(steps: seq<Step>): (bytes: seq<byte>)
  {
    if |steps| == 0 then []
    else (if steps[0].read.Got? then steps[0].read.data else []) + Image(steps[1..])
  }

  /** The bytes `esp_ota_write` accepted in trace `t`, in order. */
  function Written(t: seq<Effect>): (bytes: seq<byte>)
  {
    if |t| == 0 then []
    else (if t[0].Write? && t[0].ok then t[0].data else []) + Written(t[1..])
  }

  /** Lines 205-224, one round per step. */
  function StreamImage(steps: seq<Step>): (s: Streamed)
    requires ChunksFit(steps)
    // the loop runs while reads return bytes and writes succeed, and stops at the first round that does not
    ensures s.stop <= |steps|
    ensures forall i :: 0 <= i < s.stop ==> Accepted(steps[i])
    ensures s.end == RanOut <==> s.stop == |steps|
    ensures s.stop < |steps| && steps[s.stop].read.ReadError? ==> s.end == ReadFailed
    ensures s.stop < |steps| && steps[s.stop].read == Got([]) ==> s.end == Finished
    ensures s.stop < |steps| && steps[s.stop].read.Got? && |steps[s.stop].read.data| > 0 ==>
      !steps[s.stop].writeOk && s.end == WriteFailed
    ensures |s.trace| == 2 * s.stop + (if s.end == RanOut then 0 else if s.end == WriteFailed then 2 else 1)
    // the loop only reads and writes; no write is empty or larger than the chunk buffer
    ensures forall e :: e in s.trace ==> e.Read? || (e.Write? && 0 < |e.data| <= ChunkSize)
    // binary_file_length grows by 1..1024 bytes per accepted chunk, so it stays 0 exactly when none was accepted
    ensures s.stop <= s.total <= ChunkSize * s.stop
    ensures s.total == 0 <==> s.stop == 0
    decreases |steps|
  {
    if |steps| == 0 then Streamed(RanOut, 0, 0, [])
    else
      var read := Read(ChunkSize, steps[0].read);
      match steps[0].read
      case ReadError => Streamed(ReadFailed, 0, 0, [read])
      case Got(data) =>
        if |data| == 0 then Streamed(Finished, 0, 0, [read])
        else if !steps[0].writeOk then Streamed(WriteFailed, 0, 0, [read, Write(data, false)])
        else
          ChunksFitTail(steps);
          var rest := StreamImage(steps[1..]);
          Streamed(rest.end, rest.stop + 1, |data| + rest.total, [read, Write(data, true)] + rest.trace)
  }

  /** `binary_file_length` counts the bytes of the accepted chunks. */
  lemma {:induction false} StreamTotal(steps: seq<Step>)
    requires ChunksFit(steps)
    ensures StreamImage(steps).total == |Image(steps[..StreamImage(steps).stop])|
    decreases |steps|
  {
    var s := StreamImage(steps);
    if s.stop > 0 {
      StreamCons(steps);
      var rest := StreamImage(steps[1..]);
      StreamTotal(steps[1..]);
      assert steps[..s.stop] == [steps[0]] + steps[1..][..rest.stop];
      assert steps[..s.stop][1..] == steps[1..][..rest.stop];
    }
  }

  /** A round that keeps the loop going contributes its read and its write in front of the rest of the loop. */
  lemma StreamCons(steps: seq<Step>)
    requires ChunksFit(steps)
    requires 0 < |steps| && Accepted(steps[0])
    ensures ChunksFit(steps[1..])
    ensures var s := StreamImage(steps); var rest := StreamImage(steps[1..]);
      && s.end == rest.end && s.stop == rest.stop + 1
      && s.trace == [Read(ChunkSize, steps[0].read), Write(steps[0].read.data, true)] + rest.trace
  {
    ChunksFitTail(steps);
  }

  /** Round `i` read one chunk and then wrote exactly the bytes that read returned, successfully. */
  predicate RoundAt(steps: seq<Step>, t: seq<Effect>, i: int)
  {
    && 0 <= i < |steps| && 2 * i + 1 < |t|
    && steps[i].read.Got?
    && t[2 * i] == Read(ChunkSize, steps[i].read)
    && t[2 * i + 1] == Write(steps[i].read.data, true)
  }

  /** Rounds that all succeed, followed by a read of 0, end the loop normally after exactly those rounds. */
  lemma {:induction false} StreamFinishes(steps: seq<Step>, n: nat)
    requires ChunksFit(steps) && n < |steps|
    requires forall i :: 0 <= i < n ==> Accepted(steps[i])
    requires steps[n].read == Got([])
    ensures StreamImage(steps).end == Finished && StreamImage(steps).stop == n
    decreases n
  {
    if n > 0 {
      assert Accepted(steps[0]);
      StreamCons(steps);
      assert forall i :: 0 <= i < n - 1 ==> steps[1..][i] == steps[i + 1];
      StreamFinishes(steps[1..], n - 1);
    }
  }

  /** Every round before the loop stopped read one chunk and then wrote exactly the bytes that read returned. */
  lemma {:induction false} StreamRounds(steps: seq<Step>)
    requires ChunksFit(steps)
    ensures forall i :: 0 <= i < StreamImage(steps).stop ==> RoundAt(steps, StreamImage(steps).trace, i)
    decreases |steps|
  {
    var s := StreamImage(steps);
    if 0 < s.stop {
      ChunksFitTail(steps);
      var rest := StreamImage(steps[1..]);
      StreamRounds(steps[1..]);
      assert s.trace == [s.trace[0], s.trace[1]] + rest.trace;
      forall i | 0 <= i < s.stop
        ensures RoundAt(steps, s.trace, i)
      {
        if i > 0 {
          assert RoundAt(steps[1..], rest.trace, i - 1);
        }
      }
    }
  }

  /** The round that stopped the loop is its last read. */
  lemma {:induction false} StreamStopRead(steps: seq<Step>)
    requires ChunksFit(steps)
    ensures var s := StreamImage(steps);
      s.end != RanOut ==> s.stop < |steps| && s.trace[2 * s.stop] == Read(ChunkSize, steps[s.stop].read)
    decreases |steps|
  {
    var s := StreamImage(steps);
    if 0 < s.stop {
      StreamCons(steps);
      var rest := StreamImage(steps[1..]);
      StreamStopRead(steps[1..]);
      if s.end != RanOut {
        assert steps[1..][rest.stop] == steps[s.stop];
        assert s.trace[2 * s.stop] == rest.trace[2 * rest.stop];
      }
    }
  }

  /** When a write stopped the loop, that write, of the bytes just read, is the last call of the loop. */
  lemma {:induction false} StreamStopWrite(steps: seq<Step>)
    requires ChunksFit(steps)
    ensures var s := StreamImage(steps);
      s.end == WriteFailed ==> s.stop < |steps| && s.trace[2 * s.stop + 1] == Write(steps[s.stop].read.data, false)
    decreases |steps|
  {
    var s := StreamImage(steps);
    if 0 < s.stop {
      StreamCons(steps);
      var rest := StreamImage(steps[1..]);
      StreamStopWrite(steps[1..]);
      if s.end == WriteFailed {
        assert steps[1..][rest.stop] == steps[s.stop];
        assert s.trace[2 * s.stop + 1] == rest.trace[2 * rest.stop + 1];
      }
    }
  }

  /** `Written` of a trace with one more call in front. */
  lemma WrittenCons(e: Effect, t: seq<Effect>)
    ensures Written([e] + t) == (if e.Write? && e.ok then e.data else []) + Written(t)
  {
    assert ([e] + t)[1..] == t;
  }

  /** `Written` of two traces one after the other. */
  lemma {:induction false} WrittenAppend(a: seq<Effect>, b: seq<Effect>)
    ensures Written(a + b) == Written(a) + Written(b)
    decreases |a|
  {
    if |a| > 0 {
      assert (a + b)[0] == a[0];
      assert (a + b)[1..] == a[1..] + b;
      WrittenAppend(a[1..], b);
    } else {
      assert a + b == b;
    }
  }

  /** A trace without writes writes nothing. */
  lemma {:induction false} WrittenNoWrites(t: seq<Effect>)
    requires forall e :: e in t ==> !e.Write?
    ensures Written(t) == []
    decreases |t|
  {
    if |t| > 0 {
      assert t[0] in t;
      assert forall e :: e in t[1..] ==> e in t;
      WrittenNoWrites(t[1..]);
    }
  }

  /** Calls without writes in front of a trace add nothing to what it writes, and leave its last calls last. */
  lemma WrittenAfter(a: seq<Effect>, b: seq<Effect>)
    requires forall e :: e in a ==> !e.Write?
    ensures Written(a + b) == Written(b)
    ensures |b| <= |a + b|
    ensures 2 <= |b| ==> (a + b)[|a + b| - 2] == b[|b| - 2]
    ensures 1 <= |b| ==> (a + b)[|a + b| - 1] == b[|b| - 1]
  {
    WrittenAppend(a, b);
    WrittenNoWrites(a);
  }

  /** When the first round stops the loop, nothing reaches the partition. */
  lemma {:induction false} FirstRoundStopsWritingNothing(steps: seq<Step>)
    requires ChunksFit(steps)
    requires 0 < |steps| && StreamImage(steps).stop == 0
    ensures Written(StreamImage(steps).trace) == []
  {
    var s := StreamImage(steps);
    var read := Read(ChunkSize, steps[0].read);
    if s.end == WriteFailed {
      var failed := Write(steps[0].read.data, false);
      assert s.trace == [read] + ([failed] + []);
      WrittenCons(read, [failed] + []);
      WrittenCons(failed, []);
    } else {
      assert s.trace == [read] + [];
      WrittenCons(read, []);
    }
  }

  /** An accepted round writes the bytes its read returned. */
  lemma WrittenRound(read: ReadResult, rest: seq<Effect>)
    requires read.Got?
    ensures Written([Read(ChunkSize, read), Write(read.data, true)] + rest) == read.data + Written(rest)
  {
    var t := [Read(ChunkSize, read), Write(read.data, true)] + rest;
    assert t[1..][1..] == rest;
  }

  /** The image read in the first `n` rounds starts with the first round's bytes. */
  lemma ImageCons(steps: seq<Step>, n: nat)
    requires 0 < n <= |steps| && steps[0].read.Got?
    ensures Image(steps[..n]) == steps[0].read.data + Image(steps[1..][..n - 1])
  {
    assert steps[..n][1..] == steps[1..][..n - 1];
  }

  /** The partition receives exactly the bytes of the rounds before the loop stopped, in order: the image read so far. */
  lemma {:induction false} StreamWritesImage(steps: seq<Step>)
    requires ChunksFit(steps)
    ensures Written(StreamImage(steps).trace) == Image(steps[..StreamImage(steps).stop])
    decreases |steps|
  {
    var s := StreamImage(steps);
    if |steps| == 0 {
    } else if 0 < s.stop {
      StreamCons(steps);
      var rest := StreamImage(steps[1..]);
      StreamWritesImage(steps[1..]);
      WrittenRound(steps[0].read, rest.trace);
      ImageCons(steps, s.stop);
    } else {
      FirstRoundStopsWritingNothing(steps);
    }
  }

  /** Reads on a connected client and writes to an open session change nothing. */
  lemma {:induction false} ReadsAndWritesKeepSession(t: seq<Effect>, s: State)
    requires s.client == Connected && s.session.Writing? && !s.commit.Rebooting?
    requires forall e :: e in t ==> e.Read? || e.Write?
    ensures Run(s, t) == Some(s)
    decreases |t|
  {
    if 0 < |t| {
      assert t[0] in t;
      assert forall e :: e in t[1..] ==> e in t;
      ReadsAndWritesKeepSession(t[1..], s);
    }
  }

  /** The loop keeps the usage rules: it only reads from the connected client and writes to the open session. */
  lemma StreamKeepsSession(steps: seq<Step>, s: State)
    requires ChunksFit(steps)
    requires s.client == Connected && s.session.Writing? && !s.commit.Rebooting?
    ensures Run(s, StreamImage(steps).trace) == Some(s)
  {
    ReadsAndWritesKeepSession(StreamImage(steps).trace, s);
  }
}

=== FILE: ota_task.dfy ===
/**
 * `ota_update_task` (firmware.c lines 154-251): run the version check and,
 * only when it returned 1, download the image from the stored URL into the
 * next OTA partition, then call `esp_ota_mark_app_valid_cancel_rollback`
 * (which ESP-IDF applies to the running image), make the new partition the
 * boot partition and restart. Every failure jumps to the `cleanup` label, which cleans up the
 * HTTP client when one was created.
 */
module OtaTask {
  import opened Wrappers
  import opened CStrings
  import opened Platform
  import opened Protocol
  import opened VersionCheck
  import opened ImageWriter

  /**
   * How the task ends: the check did not return 1; a step failed and the
   * task reached `cleanup`; the device restarts into the new image; or the
   * task is still blocked in the streaming loop's read.
   */
  datatype Outcome = NotRequired | Failed | Restarted | Stalled

  /** How the download part of the task ended, and the calls it made. */
  datatype Download = Download(outcome: Outcome, trace: seq<Effect>)

  /** The check's result, how the task ended, the global `firmware_url` and every call made. */
  datatype TaskRun = TaskRun(check: int, outcome: Outcome, firmwareUrl: seq<byte>, trace: seq<Effect>)

  /**
   * Lines 207-244 as seen after the loop `s` stopped: a failed read or
   * write aborts; an empty image aborts; otherwise the session is ended,
   * and a failed end aborts while a successful one commits `p` and restarts.
   * The result holds the calls made after the loop.
   */
  function Conclude(s: Streamed, endOk: bool, p: Partition): (d: Download)
    ensures d.outcome == Outcome.Restarted <==> s.end == Finished && s.total != 0 && endOk
    ensures d.outcome == Stalled <==> s.end == RanOut
    ensures d.outcome != NotRequired
    // every failure ends with the session's one abort
    ensures d.outcome == Failed ==> OnlyAt(d.trace, Abort, |d.trace| - 1)
    // a failed read or write aborts the session at once, without ending it
    ensures s.end == ReadFailed || s.end == WriteFailed ==> d.trace == [Abort]
    // an empty image is aborted and never ended, committed or booted
    ensures s.end == Finished && s.total == 0 ==> d.trace == [Abort]
    // the commit follows a successful end, in the order mark valid, set boot partition p, restart
    ensures d.outcome == Outcome.Restarted ==> d.trace == [End(true), MarkValid, SetBoot(p), Restart]
    ensures d.outcome != Outcome.Restarted ==> forall e :: e in d.trace ==> !e.MarkValid? && !e.SetBoot? && !e.Restart?
    ensures forall e :: e in d.trace ==> !e.Begin? && !e.Write? && !e.Read?
    ensures forall e :: e in d.trace ==> OtaCall(e)
  {
    match s.end
    case RanOut => Download(Stalled, [])
    case ReadFailed => Download(Failed, [Abort])
    case WriteFailed => Download(Failed, [Abort])
    case Finished =>
      if s.total == 0 then Download(Failed, [Abort])
      else if !endOk then Download(Failed, [End(false), Abort])
      else Download(Outcome.Restarted, [End(true), MarkValid, SetBoot(p), Restart])
  }

  /** The download gets as far as a successfully begun OTA session. */
  predicate SessionBegun(img: ImageServer)
  {
    img.initOk && img.openOk && img.contentLength > 0 && img.partition.Some? && img.beginOk
  }

  /** The calls of a download up to and including a successful begin (lines 165-200). */
  function Opening(url: seq<byte>, img: ImageServer): (t: seq<Effect>)
    requires img.partition.Some?
  {
    [Init(url, true), Open(true), FetchHeaders(img.contentLength), NextPartition(img.partition),
     Begin(img.partition.value, SizeUnknown, true)]
  }

  /**
   * Lines 165-249: create and open a client for `url`, check the declared
   * length, look up the next OTA partition, begin a session of unknown size
   * on it, stream the image and conclude the session. Each failure before
   * the loop jumps to `cleanup`, which cleans up the client if one was
   * created; so does every failure after it.
   */
  function DownloadImage(url: seq<byte>, img: ImageServer): (d: Download)
    requires ChunksFit(img.stream)
    ensures d.outcome != NotRequired
    ensures |d.trace| > 0 && d.trace[0] == Init(url, img.initOk)
    // the device restarts exactly when every step succeeds and a non-empty image was read
    ensures d.outcome == Outcome.Restarted <==>
      && SessionBegun(img) && StreamImage(img.stream).end == Finished
      && StreamImage(img.stream).total != 0 && img.endOk
    // the task blocks only in the loop of a begun session
    ensures d.outcome == Stalled <==> SessionBegun(img) && StreamImage(img.stream).end == RanOut
  {
    var len := img.contentLength;
    if !img.initOk then Download(Failed, [Init(url, false)])
    else if !img.openOk then Download(Failed, [Init(url, true), Open(false), Cleanup])
    else if len <= 0 then Download(Failed, [Init(url, true), Open(true), FetchHeaders(len), Cleanup])
    else if img.partition.None? then
      Download(Failed, [Init(url, true), Open(true), FetchHeaders(len), NextPartition(None), Cleanup])
    else if !img.beginOk then
      Download(Failed, [Init(url, true), Open(true), FetchHeaders(len), NextPartition(img.partition),
                        Begin(img.partition.value, SizeUnknown, false), Cleanup])
    else
      var s := StreamImage(img.stream);
      var c := Conclude(s, img.endOk, img.partition.value);
      var t := Opening(url, img) + s.trace + c.trace;
      if c.outcome == Failed then Download(Failed, t + [Cleanup]) else Download(c.outcome, t)
  }

  /** An abort releases the session being written. */
  lemma AbortReleases(st: State, p: Partition)
    requires st.session == Writing(p) && st.commit == Uncommitted
    ensures Run(st, [Abort]) == Some(st.(session := Released))
  {
    RunOne(st, Abort);
  }

  /**
   * A failed end already releases the session (line 232), so the abort that
   * follows it (line 235) finds no handle and changes nothing.
   */
  lemma FailedEndReleases(st: State, p: Partition)
    requires st.session == Writing(p) && st.commit == Uncommitted
    ensures Run(st, [End(false)]) == Some(st.(session := Released))
    ensures Run(st, [End(false), Abort]) == Run(st, [End(false)])
  {
    RunOne(st, End(false));
    RunThen(st, [End(false)], Abort, st.(session := Released));
  }

  /** A successful end, mark valid, set boot partition and restart, in that order, commit `p` and reboot. */
  lemma CommitReboots(st: State, p: Partition)
    requires st.session == Writing(p) && st.commit == Uncommitted
    ensures Run(st, [End(true), MarkValid, SetBoot(p), Restart]) == Some(st.(session := Finalised(p), commit := Rebooting))
  {
    var ended := st.(session := Finalised(p));
    var t0 := [End(true)];
    RunOne(st, End(true));
    RunThen(st, t0, MarkValid, ended);
    RunThen(st, t0 + [MarkValid], SetBoot(p), ended.(commit := Marked));
    RunThen(st, t0 + [MarkValid] + [SetBoot(p)], Restart, ended.(commit := BootSet(p)));
    assert t0 + [MarkValid] + [SetBoot(p)] + [Restart] == [End(true), MarkValid, SetBoot(p), Restart];
  }

  /** What follows the loop keeps the usage rules: failures release the session, success commits and restarts. */
  lemma ConcludeKeepsRules(s: Streamed, endOk: bool, p: Partition, st: State)
    requires st.session == Writing(p) && st.commit == Uncommitted
    ensures var d := Conclude(s, endOk, p);
      && (d.outcome == Failed ==> Run(st, d.trace) == Some(st.(session := Released)))
      && (d.outcome == Stalled ==> Run(st, d.trace) == Some(st))
      && (d.outcome == Outcome.Restarted ==>
            Run(st, d.trace) == Some(st.(session := Finalised(p), commit := Rebooting)))
  {
    AbortReleases(st, p);
    FailedEndReleases(st, p);
    CommitReboots(st, p);
  }

  /** The calls up to a begun session keep the usage rules and leave the client connected and the session being written. */
  lemma OpeningRuns(url: seq<byte>, img: ImageServer)
    requires SessionBegun(img)
    ensures Run(Initial, Opening(url, img)) ==
      Some(State(Connected, false, img.partition, Writing(img.partition.value), Uncommitted))
  {
    var p := img.partition.value;
    var t := Opening(url, img);
    var created := Initial.(client := Created);
    var connected := Initial.(client := Connected);
    var found := connected.(partition := img.partition);
    RunOne(Initial, t[0]);
    RunThen(Initial, t[..1], t[1], created);
    assert t[..1] + [t[1]] == t[..2];
    RunThen(Initial, t[..2], t[2], connected);
    assert t[..2] + [t[2]] == t[..3];
    RunThen(Initial, t[..3], t[3], connected);
    assert t[..3] + [t[3]] == t[..4];
    RunThen(Initial, t[..4], t[4], found);
    assert t[..4] + [t[4]] == t;
  }

  /** Every exit before a session is begun keeps the usage rules and leaves nothing held. */
  lemma EarlyExitKeepsRules(url: seq<byte>, img: ImageServer)
    requires ChunksFit(img.stream) && !SessionBegun(img)
    ensures Run(Initial, DownloadImage(url, img).trace).Some?
    ensures Quiescent(Run(Initial, DownloadImage(url, img).trace).value)
  {
    var len := img.contentLength;
    var created := Initial.(client := Created);
    var connected := Initial.(client := Connected);
    var found := connected.(partition := img.partition);
    if !img.initOk {
      RunOne(Initial, Init(url, false));
    } else {
      var t0 := [Init(url, true)];
      RunOne(Initial, Init(url, true));
      if !img.openOk {
        RunThen(Initial, t0, Open(false), created);
        RunThen(Initial, t0 + [Open(false)], Cleanup, created);
        assert t0 + [Open(false)] + [Cleanup] == DownloadImage(url, img).trace;
      } else {
        RunThen(Initial, t0, Open(true), created);
        var t1 := t0 + [Open(true)];
        RunThen(Initial, t1, FetchHeaders(len), connected);
        var t2 := t1 + [FetchHeaders(len)];
        if len <= 0 {
          RunThen(Initial, t2, Cleanup, connected);
          assert t2 + [Cleanup] == DownloadImage(url, img).trace;
        } else {
          RunThen(Initial, t2, NextPartition(img.partition), connected);
          var t3 := t2 + [NextPartition(img.partition)];
          if img.partition.None? {
            RunThen(Initial, t3, Cleanup, found);
            assert t3 + [Cleanup] == DownloadImage(url, img).trace;
          } else {
            var begin := Begin(img.partition.value, SizeUnknown, false);
            RunThen(Initial, t3, begin, found);
            RunThen(Initial, t3 + [begin], Cleanup, found);
            assert t3 + [begin] + [Cleanup] == DownloadImage(url, img).trace;
          }
        }
      }
    }
  }

  /** Up to the end of the loop, a begun session keeps the usage rules and leaves the session being written. */
  lemma SessionRuns(url: seq<byte>, img: ImageServer)
    requires ChunksFit(img.stream) && SessionBegun(img)
    ensures Run(Initial, Opening(url, img) + StreamImage(img.stream).trace) ==
      Some(State(Connected, false, img.partition, Writing(img.partition.value), Uncommitted))
  {
    var writing := State(Connected, false, img.partition, Writing(img.partition.value), Uncommitted);
    OpeningRuns(url, img);
    StreamKeepsSession(img.stream, writing);
    RunAppend(Initial, Opening(url, img), StreamImage(img.stream).trace);
  }

  /** A begun session keeps the usage rules to the end: a failure leaves nothing held, a restart is the last state. */
  lemma BegunKeepsRules(url: seq<byte>, img: ImageServer)
    requires ChunksFit(img.stream) && SessionBegun(img)
    ensures var d := DownloadImage(url, img);
      && Run(Initial, d.trace).Some?
      && (d.outcome == Failed ==> Quiescent(Run(Initial, d.trace).value))
      && (d.outcome == Outcome.Restarted ==> Run(Initial, d.trace).value.commit == Rebooting)
  {
    var p := img.partition.value;
    var s := StreamImage(img.stream);
    var c := Conclude(s, img.endOk, p);
    var writing := State(Connected, false, img.partition, Writing(p), Uncommitted);
    var looped := Opening(url, img) + s.trace;
    SessionRuns(url, img);
    ConcludeKeepsRules(s, img.endOk, p, writing);
    RunAppend(Initial, looped, c.trace);
    if c.outcome == Failed {
      RunThen(Initial, looped + c.trace, Cleanup, writing.(session := Released));
    }
  }

  /** Every run of the download keeps the usage rules; a failure leaves nothing held and a restart is the last state. */
  lemma DownloadKeepsRules(url: seq<byte>, img: ImageServer)
    requires ChunksFit(img.stream)
    ensures var d := DownloadImage(url, img);
      && Run(Initial, d.trace).Some?
      && (d.outcome == Failed ==> Quiescent(Run(Initial, d.trace).value))
      && (d.outcome == Outcome.Restarted ==> Run(Initial, d.trace).value.commit == Rebooting)
  {
    if SessionBegun(img) {
      BegunKeepsRules(url, img);
    } else {
      EarlyExitKeepsRules(url, img);
    }
  }

  /** An effect missing from each of three traces is missing from their concatenation. */
  lemma NotInThree(x: Effect, a: seq<Effect>, b: seq<Effect>, c: seq<Effect>)
    requires x !in a && x !in b && x !in c
    ensures x !in a + b + c
  {
  }

  /** The calls of a begun session before the cleanup hold no close and no cleanup. */
  lemma BegunNeverCleansUp(url: seq<byte>, img: ImageServer)
    requires ChunksFit(img.stream) && SessionBegun(img)
    ensures var s := StreamImage(img.stream); var c := Conclude(s, img.endOk, img.partition.value);
      var body := Opening(url, img) + s.trace + c.trace;
      Close !in body && Cleanup !in body
  {
    var s := StreamImage(img.stream);
    var c := Conclude(s, img.endOk, img.partition.value);
    NotInThree(Close, Opening(url, img), s.trace, c.trace);
    NotInThree(Cleanup, Opening(url, img), s.trace, c.trace);
  }

  /** The image client is never closed, only cleaned up. */
  lemma DownloadNeverCloses(url: seq<byte>, img: ImageServer)
    requires ChunksFit(img.stream)
    ensures Close !in DownloadImage(url, img).trace
  {
    if SessionBegun(img) {
      BegunNeverCleansUp(url, img);
    }
  }

  /** Once the client was created, every failure cleans it up as its very last call, and only there. */
  lemma DownloadCleansUpLast(url: seq<byte>, img: ImageServer)
    requires ChunksFit(img.stream)
    ensures var d := DownloadImage(url, img);
      d.outcome == Failed && img.initOk ==> OnlyAt(d.trace, Cleanup, |d.trace| - 1)
  {
    var d := DownloadImage(url, img);
    if SessionBegun(img) && d.outcome == Failed {
      var s := StreamImage(img.stream);
      var c := Conclude(s, img.endOk, img.partition.value);
      var body := Opening(url, img) + s.trace + c.trace;
      BegunNeverCleansUp(url, img);
      OnlyAtEnd(body, Cleanup);
    }
  }

  /** A download that restarts or blocks, or never created its client, cleans nothing up. */
  lemma DownloadCleansUpOnlyOnFailure(url: seq<byte>, img: ImageServer)
    requires ChunksFit(img.stream)
    ensures var d := DownloadImage(url, img);
      d.outcome != Failed || !img.initOk ==> Cleanup !in d.trace
  {
    if SessionBegun(img) {
      BegunNeverCleansUp(url, img);
    }
  }

  /** No partition is looked up unless the client is connected and the declared length is positive. */
  lemma DownloadChecksLength(url: seq<byte>, img: ImageServer)
    requires ChunksFit(img.stream)
    ensures var d := DownloadImage(url, img);
      && (img.contentLength <= 0 ==> d.outcome == Failed)
      && forall e :: e in d.trace && e.NextPartition? ==> img.initOk && img.openOk && img.contentLength > 0
  {
    if SessionBegun(img) {
      var s := StreamImage(img.stream);
      var c := Conclude(s, img.endOk, img.partition.value);
      assert forall e :: e in s.trace + c.trace ==> !e.NextPartition?;
    }
  }

  /** A session is begun only after a positive declared length, on the partition looked up, and with unknown size. */
  lemma DownloadBeginsOnFoundPartition(url: seq<byte>, img: ImageServer)
    requires ChunksFit(img.stream)
    ensures forall e :: e in DownloadImage(url, img).trace && e.Begin? ==>
      img.contentLength > 0 && img.partition == Some(e.partition) && e.imageSize == SizeUnknown
  {
    if SessionBegun(img) {
      var s := StreamImage(img.stream);
      var c := Conclude(s, img.endOk, img.partition.value);
      assert forall e :: e in s.trace + c.trace ==> !e.Begin?;
    }
  }

  /** No OTA call is made unless the client was created and the connection opened. */
  lemma DownloadNeedsConnection(url: seq<byte>, img: ImageServer)
    requires ChunksFit(img.stream)
    ensures !img.initOk || !img.openOk ==> forall e :: e in DownloadImage(url, img).trace ==> !OtaCall(e)
  {
  }

  /** Once a session was begun, every failure aborts it just before the client is cleaned up. */
  lemma DownloadAbortsBeforeCleanup(url: seq<byte>, img: ImageServer)
    requires ChunksFit(img.stream)
    ensures var d := DownloadImage(url, img);
      d.outcome == Failed && SessionBegun(img) ==>
        |d.trace| >= 2 && d.trace[|d.trace| - 2..] == [Abort, Cleanup]
  {
    if SessionBegun(img) && DownloadImage(url, img).outcome == Failed {
      var c := Conclude(StreamImage(img.stream), img.endOk, img.partition.value);
      assert c.trace[|c.trace| - 1] == Abort;
    }
  }

  /** Without a begun session nothing is aborted. */
  lemma DownloadAbortsOnlyBegun(url: seq<byte>, img: ImageServer)
    requires ChunksFit(img.stream)
    ensures !SessionBegun(img) ==> Abort !in DownloadImage(url, img).trace
  {
  }

  /**
   * A restart happens only after a successful end: the download's last calls
   * are then end, mark valid, set the boot partition to the partition looked
   * up, restart.
   */
  lemma DownloadCommitsAfterEnd(url: seq<byte>, img: ImageServer)
    requires ChunksFit(img.stream)
    ensures var d := DownloadImage(url, img);
      d.outcome == Outcome.Restarted ==>
        && img.partition.Some? && |d.trace| >= 4
        && d.trace[|d.trace| - 4..] == [End(true), MarkValid, SetBoot(img.partition.value), Restart]
  {
  }

  /** No call of the trace belongs to the commit: neither mark valid, set boot partition nor restart. */
  predicate CommitsNothing(t: seq<Effect>)
  {
    forall e :: e in t ==> !e.MarkValid? && !e.SetBoot? && !e.Restart?
  }

  /** Three traces that commit nothing commit nothing together, nor with a cleanup after them. */
  lemma CommitsNothingThree(a: seq<Effect>, b: seq<Effect>, c: seq<Effect>)
    requires CommitsNothing(a) && CommitsNothing(b) && CommitsNothing(c)
    ensures CommitsNothing(a + b + c) && CommitsNothing(a + b + c + [Cleanup])
  {
  }

  /** Unless the download restarts, none of mark valid, set boot partition and restart is called. */
  lemma DownloadCommitsNothingOnFailure(url: seq<byte>, img: ImageServer)
    requires ChunksFit(img.stream)
    ensures DownloadImage(url, img).outcome != Outcome.Restarted ==> CommitsNothing(DownloadImage(url, img).trace)
  {
    if DownloadImage(url, img).outcome != Outcome.Restarted && SessionBegun(img) {
      var s := StreamImage(img.stream);
      var c := Conclude(s, img.endOk, img.partition.value);
      CommitsNothingThree(Opening(url, img), s.trace, c.trace);
    }
  }

  /** An empty image is aborted: the session is never ended and nothing is committed or restarted. */
  lemma DownloadRejectsEmptyImage(url: seq<byte>, img: ImageServer)
    requires ChunksFit(img.stream)
    requires SessionBegun(img) && StreamImage(img.stream).end == Finished && StreamImage(img.stream).total == 0
    ensures var d := DownloadImage(url, img);
      d.outcome == Failed && CommitsNothing(d.trace) && forall e :: e in d.trace ==> !e.End?
  {
    var s := StreamImage(img.stream);
    assert forall e :: e in Opening(url, img) + s.trace ==> !e.End? && !e.MarkValid? && !e.SetBoot? && !e.Restart?;
  }

  /**
   * A restart follows only a complete download: the partition received every
   * byte the reads returned before the read of 0, in order, and at least one.
   */
  lemma DownloadWritesImage(url: seq<byte>, img: ImageServer)
    requires ChunksFit(img.stream)
    ensures var d := DownloadImage(url, img); var s := StreamImage(img.stream);
      d.outcome == Outcome.Restarted ==>
        && s.stop < |img.stream| && img.stream[s.stop].read == Got([])
        && Written(d.trace) == Image(img.stream[..s.stop]) && |Written(d.trace)| > 0
  {
    if DownloadImage(url, img).outcome == Outcome.Restarted {
      var s := StreamImage(img.stream);
      var c := Conclude(s, img.endOk, img.partition.value);
      var head := Opening(url, img);
      assert head + s.trace + c.trace + [] == head + s.trace + c.trace;
      WrittenAppend(head + s.trace, c.trace);
      WrittenAppend(head, s.trace);
      WrittenNoWrites(head);
      WrittenNoWrites(c.trace);
      StreamWritesImage(img.stream);
      StreamTotal(img.stream);
    }
  }

  /**
   * `ota_update_task` from the global `firmwareUrl`: the version check,
   * then, only when it returned 1, the download from the URL it stored.
   */
  function UpdateTask(m: ManifestServer, img: ImageServer, firmwareUrl: seq<byte>): (r: TaskRun)
    requires ManifestReadFits(m)
    requires ChunksFit(img.stream)
    requires |firmwareUrl| == UrlBufferSize
    ensures r.check == -1 || r.check == 0 || r.check == 1
    ensures r.check == 1 <==> Fetched(m).Some? && Fetched(m).value.version > CurrentVersion
    // neither 0 nor -1 lets the task go further than the version check
    ensures r.outcome == NotRequired <==> r.check != 1
    ensures r.outcome == NotRequired ==> r.trace == FetchManifest(m).trace && forall e :: e in r.trace ==> !OtaCall(e)
    // the image is fetched from the manifest URL cut to 255 bytes, after the check's calls
    ensures r.outcome != NotRequired ==>
      var url := Fetched(m).value.url;
      && CStr(r.firmwareUrl) == CStr(url)[..Min(StrLen(url), UrlBufferSize - 1)]
      && r.outcome == DownloadImage(CStr(r.firmwareUrl), img).outcome
      && r.trace == FetchManifest(m).trace + DownloadImage(CStr(r.firmwareUrl), img).trace
  {
    var c := CheckVersion(m, firmwareUrl);
    if c.ret != 1 then TaskRun(c.ret, NotRequired, c.firmwareUrl, c.trace)
    else
      StoreUrlTruncates(firmwareUrl, Fetched(m).value.url);
      var d := DownloadImage(CStr(c.firmwareUrl), img);
      TaskRun(1, d.outcome, c.firmwareUrl, c.trace + d.trace)
  }

  /**
   * The whole task keeps the platform's usage rules: when it ends without
   * restarting, every client, buffer and OTA session it acquired has been
   * released and nothing was committed; when it restarts, the image was
   * committed first.
   */
  lemma UpdateTaskKeepsRules(m: ManifestServer, img: ImageServer, firmwareUrl: seq<byte>)
    requires ManifestReadFits(m)
    requires ChunksFit(img.stream)
    requires |firmwareUrl| == UrlBufferSize
    ensures var r := UpdateTask(m, img, firmwareUrl);
      && Run(Initial, r.trace).Some?
      && (r.outcome == NotRequired || r.outcome == Failed ==> Quiescent(Run(Initial, r.trace).value))
      && (r.outcome == Outcome.Restarted ==> Run(Initial, r.trace).value.commit == Rebooting)
  {
    var r := UpdateTask(m, img, firmwareUrl);
    FetchManifestReleasesAll(m);
    if r.outcome != NotRequired {
      var d := DownloadImage(CStr(r.firmwareUrl), img);
      DownloadKeepsRules(CStr(r.firmwareUrl), img);
      RunAppend(Initial, FetchManifest(m).trace, d.trace);
    }
  }

  /** A server that sends four chunks, each in one read, and then reports the end of the image. */
  function FourChunks(c0: seq<byte>, c1: seq<byte>, c2: seq<byte>, c3: seq<byte>): (steps: seq<Step>)
  {
    [Step(Got(c0), true), Step(Got(c1), true), Step(Got(c2), true), Step(Got(c3), true), Step(Got([]), true)]
  }

  /** The bytes of the four chunk reads, in order. */
  lemma FourChunksImage(c0: seq<byte>, c1: seq<byte>, c2: seq<byte>, c3: seq<byte>)
    ensures Image(FourChunks(c0, c1, c2, c3)[..4]) == c0 + c1 + c2 + c3
  {
    var t := FourChunks(c0, c1, c2, c3)[..4];
    assert t[1..][1..][1..][1..] == [];
    assert Image(t[1..][1..][1..]) == c3;
    assert Image(t[1..][1..]) == c2 + c3;
  }

  /** Four full chunks are all written, 4096 bytes in order, and the read of 0 then ends the loop. */
  lemma FourChunksStream(c0: seq<byte>, c1: seq<byte>, c2: seq<byte>, c3: seq<byte>)
    requires |c0| == ChunkSize && |c1| == ChunkSize && |c2| == ChunkSize && |c3| == ChunkSize
    ensures ChunksFit(FourChunks(c0, c1, c2, c3))
    ensures var steps := FourChunks(c0, c1, c2, c3); var s := StreamImage(steps);
      && s.end == Finished && s.stop == 4 && s.total == 4096
      && Image(steps[..s.stop]) == c0 + c1 + c2 + c3
  {
    var steps := FourChunks(c0, c1, c2, c3);
    assert ChunksFit(steps);
    assert forall i :: 0 <= i < 4 ==> Accepted(steps[i]);
    StreamFinishes(steps, 4);
    StreamTotal(steps);
    FourChunksImage(c0, c1, c2, c3);
  }

  /** Downloading four full chunks from a platform where every call succeeds writes them all and restarts into partition `p`. */
  lemma FourChunksDownload(url: seq<byte>, img: ImageServer, p: Partition, c0: seq<byte>, c1: seq<byte>, c2: seq<byte>, c3: seq<byte>)
    requires img.initOk && img.openOk && img.contentLength > 0 && img.partition == Some(p) && img.beginOk && img.endOk
    requires |c0| == ChunkSize && |c1| == ChunkSize && |c2| == ChunkSize && |c3| == ChunkSize
    requires img.stream == FourChunks(c0, c1, c2, c3)
    ensures ChunksFit(img.stream)
    ensures var d := DownloadImage(url, img);
      && d.outcome == Outcome.Restarted && Written(d.trace) == c0 + c1 + c2 + c3
      && |d.trace| >= 2 && d.trace[|d.trace| - 2] == SetBoot(p) && d.trace[|d.trace| - 1] == Restart
  {
    FourChunksStream(c0, c1, c2, c3);
    var d := DownloadImage(url, img);
    DownloadWritesImage(url, img);
    DownloadCommitsAfterEnd(url, img);
    assert d.trace[|d.trace| - 2] == d.trace[|d.trace| - 4..][2];
    assert d.trace[|d.trace| - 1] == d.trace[|d.trace| - 4..][3];
  }

  /** Everything the task writes to flash, and its last calls, come from the download. */
  lemma UpdateTaskEndsWithDownload(m: ManifestServer, img: ImageServer, firmwareUrl: seq<byte>)
    requires ManifestReadFits(m) && ChunksFit(img.stream) && |firmwareUrl| == UrlBufferSize
    ensures var r := UpdateTask(m, img, firmwareUrl);
      r.outcome != NotRequired ==>
        var d := DownloadImage(CStr(r.firmwareUrl), img);
        && Written(r.trace) == Written(d.trace)
        && |d.trace| <= |r.trace|
        && (2 <= |d.trace| ==> r.trace[|r.trace| - 2] == d.trace[|d.trace| - 2])
        && (1 <= |d.trace| ==> r.trace[|r.trace| - 1] == d.trace[|d.trace| - 1])
  {
    var r := UpdateTask(m, img, firmwareUrl);
    if r.outcome != NotRequired {
      var f := FetchManifest(m).trace;
      var d := DownloadImage(CStr(r.firmwareUrl), img).trace;
      assert r.trace == f + d;
      WrittenAfter(f, d);
    }
  }

  /**
   * End-to-end case: a manifest announcing version 2, a server
   * that sends an image of four 1024-byte chunks and then reports its end,
   * and a platform where every call succeeds. The device writes all 4096
   * bytes, boots the partition it looked up and restarts.
   */
  lemma NewerVersionIsInstalled(m: ManifestServer, img: ImageServer, firmwareUrl: seq<byte>, url: seq<byte>,
                                p: Partition, c0: seq<byte>, c1: seq<byte>, c2: seq<byte>, c3: seq<byte>)
    requires ManifestReadFits(m) && Fetched(m) == Some(Manifest(2, url))
    requires |firmwareUrl| == UrlBufferSize
    requires img.initOk && img.openOk && img.contentLength > 0 && img.partition == Some(p) && img.beginOk && img.endOk
    requires |c0| == ChunkSize && |c1| == ChunkSize && |c2| == ChunkSize && |c3| == ChunkSize
    requires img.stream == FourChunks(c0, c1, c2, c3)
    ensures ChunksFit(img.stream)
    ensures var r := UpdateTask(m, img, firmwareUrl);
      && r.check == 1 && r.outcome == Outcome.Restarted
      && Written(r.trace) == c0 + c1 + c2 + c3 && |Written(r.trace)| == 4096
      && r.trace[|r.trace| - 2] == SetBoot(p) && r.trace[|r.trace| - 1] == Restart
  {
    var r := UpdateTask(m, img, firmwareUrl);
    FourChunksDownload(CStr(r.firmwareUrl), img, p, c0, c1, c2, c3);
    UpdateTaskEndsWithDownload(m, img, firmwareUrl);
  }

  /** A manifest announcing the running version ends the task after the check, with no image fetched. */
  lemma SameVersionIsNotInstalled(m: ManifestServer, img: ImageServer, firmwareUrl: seq<byte>, url: seq<byte>)
    requires ManifestReadFits(m) && Fetched(m) == Some(Manifest(CurrentVersion, url))
    requires ChunksFit(img.stream)
    requires |firmwareUrl| == UrlBufferSize
    ensures var r := UpdateTask(m, img, firmwareUrl);
      && r.check == 0 && r.outcome == NotRequired
      && r.trace == FetchManifest(m).trace && Written(r.trace) == []
      && forall e :: e in r.trace ==> !e.Init? || e.url == VersionJsonUrl
  {
    WrittenNoWrites(UpdateTask(m, img, firmwareUrl).trace);
  }
}

=== FILE: platform.dfy ===
/**
 * The firmware's constants and everything it learns from the outside world.
 * Every HTTP-client, OTA, partition and cJSON call is an oracle: its answer
 * is a field of a server datatype, and the call itself is recorded as an
 * `Effect` carrying that answer.
 */
module Platform {
  import opened Wrappers
  import opened CStrings

  /** CURRENT_VERSION: the version of the running image. */
  const CurrentVersion: int := 1

  /** Largest manifest body the version check accepts. */
  const MaxManifestLength: int := 2048

  /** Size of the global `firmware_url` buffer, terminator included. */
  const UrlBufferSize: nat := 256

  /** Size of the stack buffer the image is streamed through. */
  const ChunkSize: nat := 1024

  /** VERSION_JSON_URL: where the manifest lives. */
  const VersionJsonUrl: seq<byte> :=
    Bytes("http://github.com/Naman240804/OTA/blob/d13a818c2afc622e587352c237ba22db9ab6db30/firmware.json")

  /** A flash partition as returned by `esp_ota_get_next_update_partition`. */
  datatype Partition = Partition(address: nat)

  /** The image size announced to `esp_ota_begin`; OTA_SIZE_UNKNOWN or a byte count. */
  datatype ImageSize = SizeUnknown | SizeKnown(count: nat)

  /** One `esp_http_client_read`: a negative return, or the bytes placed in the buffer (none at end of stream). */
  datatype ReadResult = ReadError | Got(data: seq<byte>)

  /** The `int` the read returns. */
  function Returned(r: ReadResult): (n: int)
  {
    match r
    case ReadError => -1
    case Got(data) => |data|
  }

  /** A cJSON item as far as the firmware inspects it: its type and, for numbers and strings, its value. */
  datatype Item = Number(valueint: int) | Text(valuestring: seq<byte>) | OtherItem

  /** A parsed document: what `cJSON_GetObjectItem` finds under "version" and "url" (None is NULL). */
  datatype Doc = Doc(version: Option<Item>, url: Option<Item>)

  /** One call into the platform, with the answer it gave. */
  datatype Effect =
    | Init(url: seq<byte>, created: bool)       // esp_http_client_init; created is false for NULL
    | Open(ok: bool)                            // esp_http_client_open
    | FetchHeaders(length: int)                 // esp_http_client_fetch_headers
    | Read(max: nat, result: ReadResult)        // esp_http_client_read of at most max bytes
    | Close                                     // esp_http_client_close
    | Cleanup                                   // esp_http_client_cleanup
    | Alloc(bytes: nat, ok: bool)               // malloc
    | Free                                      // free
    | Parse(text: seq<byte>)                    // cJSON_Parse
    | NextPartition(found: Option<Partition>)   // esp_ota_get_next_update_partition
    | Begin(partition: Partition, imageSize: ImageSize, ok: bool)  // esp_ota_begin
    | Write(data: seq<byte>, ok: bool)          // esp_ota_write
    | Abort                                     // esp_ota_abort
    | End(ok: bool)                             // esp_ota_end
    | MarkValid                                 // esp_ota_mark_app_valid_cancel_rollback
    | SetBoot(partition: Partition)             // esp_ota_set_boot_partition
    | Restart                                   // esp_restart

  /** The answers of the server holding the manifest and of the calls made while fetching it. */
  datatype ManifestServer = ManifestServer(
    initOk: bool,
    openOk: bool,
    contentLength: int,
    mallocOk: bool,
    body: ReadResult,
    parse: seq<byte> -> Option<Doc>,
    heap: nat -> byte)  // what `malloc` leaves at each offset of the manifest buffer

  /** The read honours its length argument: it never returns more than the declared length it is asked for. */
  predicate ManifestReadFits(m: ManifestServer)
  {
    m.body.Got? && m.contentLength > 0 ==> |m.body.data| <= m.contentLength
  }

  /** One round of the streaming loop: the read, and whether `esp_ota_write` of its bytes succeeds. */
  datatype Step = Step(read: ReadResult, writeOk: bool)

  /** The answers of the image server and of the OTA calls made while writing the image. */
  datatype ImageServer = ImageServer(
    initOk: bool,
    openOk: bool,
    contentLength: int,
    partition: Option<Partition>,
    beginOk: bool,
    stream: seq<Step>,
    endOk: bool)

  /** Every read of the stream returns at most the chunk it is asked for. */
  predicate ChunksFit(stream: seq<Step>)
  {
    forall i :: 0 <= i < |stream| && stream[i].read.Got? ==> |stream[i].read.data| <= ChunkSize
  }

  /** `e` occurs in `t` exactly once, at index `k`. */
  predicate OnlyAt(t: seq<Effect>, e: Effect, k: int)
  {
    0 <= k < |t| && t[k] == e && forall i :: 0 <= i < |t| && t[i] == e ==> i == k
  }

  /** A call missing from `t` and appended to it happens exactly once, at the end. */
  lemma OnlyAtEnd(t: seq<Effect>, e: Effect)
    requires e !in t
    ensures OnlyAt(t + [e], e, |t|)
  {
    assert forall i :: 0 <= i < |t| ==> (t + [e])[i] == t[i];
  }

  /** What holds of a stream holds of the rounds after its first. */
  lemma ChunksFitTail(stream: seq<Step>)
    requires |stream| > 0 && ChunksFit(stream)
    ensures ChunksFit(stream[1..])
  {
    forall i | 0 <= i < |stream[1..]| && stream[1..][i].read.Got?
      ensures |stream[1..][i].read.data| <= ChunkSize
    {
      assert stream[1..][i] == stream[i + 1];
    }
  }

  /** A call into the OTA or partition API. */
  predicate OtaCall(e: Effect)
  {
    e.NextPartition? || e.Begin? || e.Write? || e.Abort? || e.End? || e.MarkValid? || e.SetBoot? || e.Restart?
  }
}

=== FILE: protocol.dfy ===
/**
 * The usage rules, written as an automaton over effects and independent of
 * the firmware's control flow. The platform's resource rules: an HTTP client
 * is created, then opened, and ended by a cleanup, which a close may precede;
 * a heap buffer is freed once; an OTA session is begun on the partition just
 * looked up, then ended or aborted, and `esp_ota_end` frees the session's
 * handle whatever its result. The commit order the firmware must follow
 * (ESP-IDF itself accepts the mark-valid call at any time): mark valid, set
 * the boot partition and restart only after a successful end, in that order,
 * and nothing after the restart.
 */
module Protocol {
  import opened Wrappers
  import opened Platform

  datatype Client = NoClient | Created | Connected | Disconnected

  datatype Session = NoSession | Writing(p: Partition) | Finalised(p: Partition) | Released

  datatype Commit = Uncommitted | Marked | BootSet(p: Partition) | Rebooting

  datatype State = State(
    client: Client,
    buffer: bool,
    partition: Option<Partition>,
    session: Session,
    commit: Commit)

  /** Nothing held, nothing looked up. */
  const Initial: State := State(NoClient, false, None, NoSession, Uncommitted)

  /** No client, buffer or OTA session is left held and nothing was committed. */
  predicate Quiescent(s: State)
  {
    && s.client == NoClient
    && !s.buffer
    && (s.session.NoSession? || s.session.Released?)
    && s.commit == Uncommitted
  }

  /** The state after effect `e`, or None when the rules forbid `e` in state `s`. */
  function Next(s: State, e: Effect): (next: Option<State>)
  {
    if s.commit.Rebooting? then None
    else match e
      case Init(_, created) =>
        if s.client.NoClient? then Some(if created then s.(client := Created) else s) else None
      case Open(ok) =>
        if s.client.Created? then Some(if ok then s.(client := Connected) else s) else None
      case FetchHeaders(_) =>
        if s.client.Connected? then Some(s) else None
      case Read(_, _) =>
        if s.client.Connected? then Some(s) else None
      case Close =>
        if s.client.Connected? then Some(s.(client := Disconnected)) else None
      case Cleanup =>
        if !s.client.NoClient? then Some(s.(client := NoClient)) else None
      case Alloc(_, ok) =>
        if !s.buffer then Some(s.(buffer := ok)) else None
      case Free =>
        if s.buffer then Some(s.(buffer := false)) else None
      case Parse(_) =>
        if s.buffer then Some(s) else None
      case NextPartition(found) =>
        if s.session.NoSession? then Some(s.(partition := found)) else None
      case Begin(p, _, ok) =>
        if s.session.NoSession? && s.partition == Some(p)
        then Some(if ok then s.(session := Writing(p)) else s)
        else None
      case Write(_, _) =>
        if s.session.Writing? then Some(s) else None
      // aborting a handle that was already released finds nothing and changes nothing (ESP_ERR_NOT_FOUND)
      case Abort =>
        if s.session.Writing? || s.session.Released? then Some(s.(session := Released)) else None
      case End(ok) =>
        if s.session.Writing?
        then Some(s.(session := if ok then Finalised(s.session.p) else Released))
        else None
      case MarkValid =>
        if s.session.Finalised? && s.commit.Uncommitted? then Some(s.(commit := Marked)) else None
      case SetBoot(p) =>
        if s.session == Finalised(p) && s.commit.Marked? then Some(s.(commit := BootSet(p))) else None
      case Restart =>
        if s.commit.BootSet? then Some(s.(commit := Rebooting)) else None
  }

  /** The state after the whole trace `t`, or None when some effect of it breaks the rules. */
  function Run(s: State, t: seq<Effect>): (final: Option<State>)
    decreases |t|
  {
    if |t| == 0 then Some(s)
    else match Next(s, t[0])
      case None => None
      case Some(s') => Run(s', t[1..])
  }

  /** Running a concatenation runs its halves one after the other. */
  lemma {:induction false} RunAppend(s: State, a: seq<Effect>, b: seq<Effect>)
    ensures Run(s, a + b) == (match Run(s, a) case None => None case Some(s') => Run(s', b))
    decreases |a|
  {
    if |a| == 0 {
      assert a + b == b;
    } else {
      assert (a + b)[0] == a[0];
      assert (a + b)[1..] == a[1..] + b;
      match Next(s, a[0]) {
        case None =>
        case Some(s') => RunAppend(s', a[1..], b);
      }
    }
  }

  /** A trace of one effect runs that effect. */
  lemma RunOne(s: State, e: Effect)
    ensures Run(s, [e]) == Next(s, e)
  {
    assert [e][1..] == [];
  }

  /** Extending a trace that ends in state `s'` by one effect takes that effect from `s'`. */
  lemma RunThen(s: State, t: seq<Effect>, e: Effect, s': State)
    requires Run(s, t) == Some(s')
    ensures Run(s, t + [e]) == Next(s', e)
  {
    RunAppend(s, t, [e]);
    RunOne(s', e);
  }
}

=== FILE: version_check.dfy ===
/**
 * `check_version` (firmware.c lines 65-148): fetch the manifest over HTTP,
 * parse it, store its URL in the global `firmware_url` and compare its
 * version with the running one. Returns -1 on any failure, 1 when the
 * manifest announces a newer version and 0 otherwise.
 */
module VersionCheck {
  import opened Wrappers
  import opened CStrings
  import opened Platform
  import opened Protocol

  /** What `check_version` returns, the global `firmware_url` after it, and the calls it made. */
  datatype Checked = Checked(ret: int, firmwareUrl: seq<byte>, trace: seq<Effect>)

  /** A manifest with both fields present and of the right type. */
  datatype Manifest = Manifest(version: int, url: seq<byte>)

  /**
   * The reference: the manifest a successful fetch yields. Every call must
   * succeed, the declared length must lie in 1..2048, the read must return
   * some bytes, and the text up to the first NUL of those bytes must parse to
   * a document with a numeric "version" and a string "url".
   */
  function Fetched(m: ManifestServer): (manifest: Option<Manifest>)
  {
    if m.initOk && m.openOk && 0 < m.contentLength <= MaxManifestLength && m.mallocOk
       && m.body.Got? && |m.body.data| > 0
    then
      match m.parse(CStr(m.body.data))
      case Some(Doc(Some(Number(v)), Some(Text(u)))) => Some(Manifest(v, u))
      case _ => None
    else None
  }

  /** The bytes `malloc` left in the manifest buffer of `m` at offsets `from` up to `size`. */
  function Leftover(m: ManifestServer, from: nat, size: nat): (junk: seq<byte>)
    requires from <= size
    ensures |junk| == size - from
  {
    seq(size - from, i requires 0 <= i => m.heap(from + i))
  }

  /**
   * The manifest buffer after the read placed `data` at its front and
   * `buffer[data_read] = '\0'` ran; `junk` is what the buffer held from
   * offset `|data|` on before that, and the bytes after the terminator keep it.
   * The terminator index must lie inside the buffer.
   */
  function TerminatedBody(data: seq<byte>, junk: seq<byte>): (buffer: seq<byte>)
    requires |junk| > 0
    ensures |buffer| == |data| + |junk|
    ensures buffer[..|data|] == data && buffer[|data|] == NUL
    ensures buffer[|data| + 1..] == junk[1..]
  {
    (data + junk)[|data| := NUL]
  }

  /** The parser sees the bytes read up to their first NUL, whatever the buffer held beyond the terminator. */
  lemma TerminatedBodyText(data: seq<byte>, junk: seq<byte>)
    requires |junk| > 0
    ensures CStr(TerminatedBody(data, junk)) == CStr(data)
  {
    var buffer := TerminatedBody(data, junk);
    var k := StrLen(data);
    assert buffer[..k] == data[..k];
    CStrUnique(buffer, data[..k]);
  }

  /** Lines 137-138: `strncpy` into the first 255 bytes of the global, then a NUL in its last byte. */
  function StoreUrl(buffer: seq<byte>, url: seq<byte>): (stored: seq<byte>)
    requires |buffer| == UrlBufferSize
    ensures |stored| == UrlBufferSize
    ensures stored[UrlBufferSize - 1] == NUL
  {
    var copied := StrNCpy(url, UrlBufferSize - 1);
    (copied + buffer[UrlBufferSize - 1..])[UrlBufferSize - 1 := NUL]
  }

  /** The global starts with the copied part of the URL, followed by a NUL. */
  lemma StoreUrlPrefix(buffer: seq<byte>, url: seq<byte>)
    requires |buffer| == UrlBufferSize
    ensures var k := Min(StrLen(url), UrlBufferSize - 1);
      StoreUrl(buffer, url)[..k] == url[..k] && StoreUrl(buffer, url)[k] == NUL
  {
    var stored := StoreUrl(buffer, url);
    var copied := StrNCpy(url, UrlBufferSize - 1);
    var k := Min(StrLen(url), UrlBufferSize - 1);
    assert stored[..UrlBufferSize - 1] == copied;
    assert copied[..k] == url[..k];
    assert stored[..k] == copied[..k];
  }

  /** The first `k` bytes of a C string's text hold no NUL. */
  lemma PrefixOfText(buf: seq<byte>, k: nat)
    requires k <= StrLen(buf)
    ensures buf[..k] == CStr(buf)[..k]
    ensures NUL !in buf[..k]
  {
    assert forall i :: 0 <= i < k ==> buf[..k][i] == buf[i];
  }

  /**
   * The stored URL, read back as a C string, is the manifest URL cut to at
   * most 255 bytes, and does not depend on what the global held before.
   */
  lemma StoreUrlTruncates(buffer: seq<byte>, url: seq<byte>)
    requires |buffer| == UrlBufferSize
    ensures CStr(StoreUrl(buffer, url)) == CStr(url)[..Min(StrLen(url), UrlBufferSize - 1)]
    ensures StrLen(url) < UrlBufferSize ==> CStr(StoreUrl(buffer, url)) == CStr(url)
    ensures StrLen(url) >= UrlBufferSize - 1 ==> CStr(StoreUrl(buffer, url)) == url[..UrlBufferSize - 1]
  {
    var k := Min(StrLen(url), UrlBufferSize - 1);
    StoreUrlPrefix(buffer, url);
    PrefixOfText(url, k);
    CStrUnique(StoreUrl(buffer, url), url[..k]);
  }

  /** What the global held before the copy does not matter: `strncpy` and the terminator overwrite all of it. */
  lemma StoreUrlOverwritesAll(buffer: seq<byte>, other: seq<byte>, url: seq<byte>)
    requires |buffer| == UrlBufferSize && |other| == UrlBufferSize
    ensures StoreUrl(buffer, url) == StoreUrl(other, url)
  {
  }

  /** The fetch half of `check_version` (lines 73-121): the parsed document, if any, and the calls made. */
  datatype Fetch = Fetch(json: Option<Doc>, trace: seq<Effect>)

  /**
   * Lines 88-119, on an open connection: check the declared length, allocate
   * `length + 1` bytes, read once, terminate, parse, free the buffer.
   */
  function ReadManifest(m: ManifestServer): (f: Fetch)
    requires ManifestReadFits(m)
    ensures f.json.Some? <==>
      && 0 < m.contentLength <= MaxManifestLength && m.mallocOk
      && m.body.Got? && |m.body.data| > 0 && m.parse(CStr(m.body.data)).Some?
    ensures f.json.Some? ==> f.json == m.parse(CStr(m.body.data))
    // the buffer is allocated with room for the terminator, and only when the declared length is in 1..2048
    ensures forall e :: e in f.trace && e.Alloc? ==> 0 < m.contentLength <= MaxManifestLength && e.bytes == m.contentLength + 1
    // the body is read with the declared length, and only when that length is in 1..2048
    ensures forall e :: e in f.trace && e.Read? ==> 0 < m.contentLength <= MaxManifestLength && e == Read(m.contentLength, m.body)
    // the parser is handed the bytes read up to their first NUL: at most the declared length
    ensures forall e :: e in f.trace && e.Parse? ==> m.body.Got? && e.text == CStr(m.body.data) && |e.text| <= m.contentLength
    ensures Close !in f.trace && Cleanup !in f.trace
    // the read uses the open connection: no client is created or opened, and no OTA call made
    ensures forall e :: e in f.trace ==> !OtaCall(e) && !e.Init? && !e.Open?
  {
    var headers := [FetchHeaders(m.contentLength)];
    if m.contentLength <= 0 || m.contentLength > MaxManifestLength then
      Fetch(None, headers)
    else if !m.mallocOk then
      Fetch(None, headers + [Alloc(m.contentLength + 1, false)])
    else
      var reading := headers + [Alloc(m.contentLength + 1, true), Read(m.contentLength, m.body)];
      if Returned(m.body) <= 0 then
        Fetch(None, reading + [Free])
      else
        var junk := Leftover(m, |m.body.data|, m.contentLength + 1);
        TerminatedBodyText(m.body.data, junk);
        var text := CStr(TerminatedBody(m.body.data, junk));
        Fetch(m.parse(text), reading + [Parse(text), Free])
  }

  /**
   * Line 105: the body is read once, with the declared length, right after
   * the headers and the allocation; whatever that one read returned is what
   * gets parsed.
   */
  lemma ReadManifestReadsOnce(m: ManifestServer)
    requires ManifestReadFits(m)
    ensures var t := ReadManifest(m).trace;
      && (0 < m.contentLength <= MaxManifestLength && m.mallocOk ==> 2 < |t| && t[2] == Read(m.contentLength, m.body))
      && forall i :: 0 <= i < |t| && t[i].Read? ==> i == 2
  {
  }

  /**
   * Lines 73-121: create and open the client, read the manifest, then close
   * and clean up the client.
   */
  function FetchManifest(m: ManifestServer): (f: Fetch)
    requires ManifestReadFits(m)
    ensures f.json.Some? <==> m.initOk && m.openOk && ReadManifest(m).json.Some?
    ensures f.json.Some? ==> f.json == ReadManifest(m).json
    // once opened, the connection is closed and then cleaned up, once each, as the last two calls
    ensures m.initOk && m.openOk ==>
      |f.trace| >= 2 && OnlyAt(f.trace, Close, |f.trace| - 2) && OnlyAt(f.trace, Cleanup, |f.trace| - 1)
    // a client that failed to open is cleaned up but never closed
    ensures m.initOk && !m.openOk ==> Close !in f.trace && OnlyAt(f.trace, Cleanup, |f.trace| - 1)
    // a client that was never created is neither closed nor cleaned up
    ensures !m.initOk ==> Close !in f.trace && Cleanup !in f.trace
    ensures forall e :: e in f.trace ==> !OtaCall(e)
    // the only client created is the one for the manifest URL
    ensures forall e :: e in f.trace && e.Init? ==> e == Init(VersionJsonUrl, m.initOk)
    // no read and no parse without an open connection
    ensures forall e :: e in f.trace && (e.Read? || e.Parse?) ==> m.initOk && m.openOk && e in ReadManifest(m).trace
  {
    var created := [Init(VersionJsonUrl, m.initOk)];
    if !m.initOk then Fetch(None, created)
    else if !m.openOk then Fetch(None, created + [Open(false)] + [Cleanup])
    else
      var r := ReadManifest(m);
      Fetch(r.json, created + [Open(true)] + r.trace + [Close] + [Cleanup])
  }

  /** `check_version` over the answers of `m`, starting from the global `firmwareUrl`. */
  function CheckVersion(m: ManifestServer, firmwareUrl: seq<byte>): (c: Checked)
    requires ManifestReadFits(m)
    requires |firmwareUrl| == UrlBufferSize
    ensures c.trace == FetchManifest(m).trace
    ensures c.ret == -1 || c.ret == 0 || c.ret == 1
    ensures c.ret == -1 <==> Fetched(m).None?
    ensures c.ret == 1 <==> Fetched(m).Some? && Fetched(m).value.version > CurrentVersion
    ensures c.ret == -1 ==> c.firmwareUrl == firmwareUrl
    ensures c.ret != -1 ==> c.firmwareUrl == StoreUrl(firmwareUrl, Fetched(m).value.url)
    ensures |c.firmwareUrl| == UrlBufferSize
  {
    var f := FetchManifest(m);
    match f.json
    case None => Checked(-1, firmwareUrl, f.trace)
    case Some(doc) =>
      if doc.version.None? || doc.url.None? || !doc.version.value.Number? || !doc.url.value.Text? then
        Checked(-1, firmwareUrl, f.trace)
      else
        var stored := StoreUrl(firmwareUrl, doc.url.value.valuestring);
        if doc.version.value.valueint > CurrentVersion then Checked(1, stored, f.trace)
        else Checked(0, stored, f.trace)
  }

  /** On an open connection, the manifest read keeps the usage rules and frees the buffer it allocated. */
  lemma ReadManifestFreesBuffer(m: ManifestServer, s: State)
    requires ManifestReadFits(m)
    requires s.client == Connected && !s.buffer && s.commit != Rebooting
    ensures Run(s, ReadManifest(m).trace) == Some(s)
  {
    var t := ReadManifest(m).trace;
    var len := m.contentLength;
    var t0 := [FetchHeaders(len)];
    RunOne(s, t0[0]);
    if 0 < len <= MaxManifestLength {
      if !m.mallocOk {
        RunThen(s, t0, Alloc(len + 1, false), s);
        assert t == t0 + [Alloc(len + 1, false)];
      } else {
        var holding := s.(buffer := true);
        RunThen(s, t0, Alloc(len + 1, true), s);
        var t1 := t0 + [Alloc(len + 1, true)];
        RunThen(s, t1, Read(len, m.body), holding);
        var t2 := t1 + [Read(len, m.body)];
        if Returned(m.body) <= 0 {
          RunThen(s, t2, Free, holding);
          assert t == t2 + [Free];
        } else {
          var text := CStr(TerminatedBody(m.body.data, Leftover(m, |m.body.data|, len + 1)));
          RunThen(s, t2, Parse(text), holding);
          RunThen(s, t2 + [Parse(text)], Free, holding);
          assert t == t2 + [Parse(text)] + [Free];
        }
      }
    }
  }

  /** Every path of `check_version` keeps the platform's usage rules and releases everything it acquired. */
  lemma FetchManifestReleasesAll(m: ManifestServer)
    requires ManifestReadFits(m)
    ensures Run(Initial, FetchManifest(m).trace) == Some(Initial)
  {
    var t := FetchManifest(m).trace;
    var t0 := [Init(VersionJsonUrl, m.initOk)];
    RunOne(Initial, t0[0]);
    if m.initOk {
      var created := Initial.(client := Created);
      if !m.openOk {
        RunThen(Initial, t0, Open(false), created);
        RunThen(Initial, t0 + [Open(false)], Cleanup, created);
        assert t == t0 + [Open(false)] + [Cleanup];
      } else {
        var connected := Initial.(client := Connected);
        RunThen(Initial, t0, Open(true), created);
        var t1 := t0 + [Open(true)];
        var r := ReadManifest(m).trace;
        ReadManifestFreesBuffer(m, connected);
        RunAppend(Initial, t1, r);
        RunThen(Initial, t1 + r, Close, connected);
        RunThen(Initial, t1 + r + [Close], Cleanup, Initial.(client := Disconnected));
        assert t == t1 + r + [Close] + [Cleanup];
      }
    }
  }
}

=== FILE: wrappers.dfy ===
/** The optional value used wherever a platform call may hand back nothing (a NULL pointer). */
module Wrappers {

  datatype Option<+T> = None | Some(value: T)
}
